=== FILE: README.md ===
# MDF trainer: a verified model of the drill engine

The MDF trainer drills poker players on two numbers for a bet facing them:
**pot odds** and **MDF**. Pot odds is the call's share of the pot after
calling. MDF (minimum defense frequency) is the share of the defending range
that must continue so that a bluff does not profit automatically.

This project models the trainer's logic in Dafny and proves properties of it:

- the calculator (`mdf-trainer/src/calculator.js`);
- the question generator (`mdf-trainer/src/questionGenerator.js`);
- the browser page's own copies of both, its bet-size table, and its
  running score (`mdf-trainer/public/app.js`).

Modelling choices:

- JavaScript numbers are exact `real`s.
- `Math.round(x)` is `(x + 0.5).Floor`: the nearest integer, with halves
  rounded toward positive infinity.
- Rounding to cents, tenths and half units (`Math.round(x * 100) / 100` and
  its kin) is `Round2`, `Round1` and `RoundHalf` in module `JsMath`.
- Every `Math.random()` call becomes an explicit draw `u` in [0, 1): one for
  the pot, one for the bet size and one for the question kind. Each
  operation is then a total, deterministic function.
- `parseFloat` of the user's answer becomes an `Option<real>`, with `None`
  for `NaN`.

Modules (one file each):

| module | file | models |
|---|---|---|
| `JsMath` | js_math.dfy | `Math.round` and the scaled roundings |
| `RealArith` | real_arith.dfy | helper facts about real division |
| `Wrappers` | wrappers.dfy | `Option` |
| `Calculator` | calculator.dfy | calculator.js |
| `WeightedDraw` | weighted_draw.dfy | the cumulative-weight scan shared by both bet-size generators |
| `QuestionGenerator` | question_generator.dfy | questionGenerator.js |
| `BrowserQuestions` | browser_questions.dfy | app.js: calculator copies, bet-size table, `generateQuestion`, question-type choice |
| `Score` | score.dfy | app.js: the score state machine and the displayed accuracy |

A division by zero in the source yields `Infinity` in JavaScript. The
calculator's preconditions `PotOddsDefined` and `MdfDefined` exclude only
that case. The generators need their drawn pot to be non-negative, so they
require a non-negative pot range and a draw in [0, 1).

The source ships `calculatePotOdds`, `calculateMDF`, `calculateBetAmount`,
`generateRandomPot` and `checkAnswer` twice: once in the modules and once in
the page. The model keeps both copies, and `BrowserQuestions.CopiesAgree`
proves that they agree on every input.

The tests of `questionGenerator.js` pass an `includeOccasionalSizes` option.
The generator ignores it. The tests' expectation still holds, because every
size that generator can draw is in its own seven-size standard list. The page's generator has a
real `includeOccasional` flag, and `generateQuestion` always calls it with
the default `true`.

## Model

| member | source | states |
|---|---|---|
| JsMath.Round | mdf-trainer/src/calculator.js:59 | `Math.round` returns an integer within half a unit of its argument, ties going up |
| JsMath.Round2 | mdf-trainer/src/calculator.js:18 | rounding to cents yields a whole number of cents within half a cent of the input (above by at most half a cent, below by strictly less) |
| JsMath.Round2Unique | mdf-trainer/src/calculator.js:18 | any whole number of cents in that window is the rounded value, so the window characterises rounding to cents |
| JsMath.Round2Monotone | mdf-trainer/src/calculator.js:18 | rounding to cents preserves order |
| JsMath.Round2FixesCents | mdf-trainer/src/calculator.js:18 | amounts already in cents are left unchanged |
| JsMath.Round2Idempotent | mdf-trainer/src/calculator.js:18 | rounding to cents twice equals rounding once |
| JsMath.Round1 | mdf-trainer/src/calculator.js:32 | rounding to tenths yields a whole number of tenths within 0.05 of the input |
| JsMath.RoundHalf | mdf-trainer/src/questionGenerator.js:27 | snapping to half units yields a multiple of 0.5 within 0.25 of the input |
| Calculator.PotOdds | mdf-trainer/src/calculator.js:14-19 | 0 for a non-positive bet; otherwise the cents value nearest to bet/(pot + 2·bet)·100 |
| Calculator.PotOddsRatio | mdf-trainer/src/calculator.js:28-33 | numeric part of the "x:1" ratio: 0 for a non-positive bet; otherwise the tenths value nearest to (pot + bet)/bet |
| Calculator.Mdf | mdf-trainer/src/calculator.js:44-48 | 100 for a non-positive bet; otherwise the cents value nearest to pot/(pot + bet)·100, which equals the source's (1 − bet/(pot + bet))·100 |
| Calculator.BetSizePercentage | mdf-trainer/src/calculator.js:57-60 | 0 for a non-positive pot; otherwise the integer nearest to bet/pot·100 |
| Calculator.BetAmount | mdf-trainer/src/calculator.js:69-71 | the cents value nearest to pot·percentage/100 |
| Calculator.PotOddsIsRoundedShare | mdf-trainer/src/calculator.js:15-18 | for a positive bet, pot odds equal Round2(bet/(pot + 2·bet)·100) |
| Calculator.MdfIsRoundedShare | mdf-trainer/src/calculator.js:45-47 | for a positive bet, MDF equals Round2(pot/(pot + bet)·100) |
| Calculator.PotOddsBounds | mdf-trainer/src/calculator.js:12-19 | for a non-negative pot, pot odds lie in [0, 50], inside the documented 0–100 range |
| Calculator.MdfBounds | mdf-trainer/src/calculator.js:42-48 | for a non-negative pot, MDF lies in [0, 100] |
| Calculator.DefenseShareStrictlyDecreasing | mdf-trainer/src/calculator.js:46 | for a fixed positive pot, the unrounded MDF strictly decreases as the bet grows |
| Calculator.MdfNonIncreasing | mdf-trainer/src/calculator.js:44-48 | for a fixed positive pot, a larger bet never raises the rounded MDF, across the bet ≤ 0 guard as well |
| Calculator.PotOddsNonDecreasing | mdf-trainer/src/calculator.js:14-19 | for a fixed non-negative pot, a larger bet never lowers the rounded pot odds |
| Calculator.RatioMatchesPotOdds | mdf-trainer/src/calculator.js:14-33 | an unrounded ratio of x:1 and the unrounded pot odds p satisfy p·(x + 1) = 100 |
| Calculator.BetSizeRoundTrip | mdf-trainer/src/calculator.js:57-71 | turning a whole percentage into an amount and back returns it, for every pot above 1 |
| Calculator.CalculatorExamples | mdf-trainer/src/calculator.test.js:11-109 | every pot-odds, ratio and MDF value the tests expect, e.g. pot odds(100, 50) = 25, ratio(100, 50) = 3, MDF(100, 75) = 57.14, MDF(100, 0) = 100 |
| Calculator.BetSizePercentageExamples | mdf-trainer/src/calculator.test.js:112-127 | every bet-size percentage the tests expect: 50, 33, 75, 100, 66 and 20 of a 100 pot, and 0 for a zero pot |
| Calculator.BetAmountExamples | mdf-trainer/src/calculator.test.js:131-136 | the standard sizes' amounts on a 100 pot: 50, 33, 75 and 100 |
| Calculator.FractionalPotBetAmounts | mdf-trainer/src/calculator.test.js:138-141 | 50% of 45.5 is 22.75 and 100% of 4.5 is 4.5 |
| Calculator.SmallPotScenario | mdf-trainer/src/calculator.test.js:145-151 | a 75% bet into 4.5 is 3.38, with pot odds 30.02 and MDF 57.11 |
| Calculator.DeepStackScenario | mdf-trainer/src/calculator.test.js:153-159 | a 50% bet into 200 is 100, with pot odds 25 and MDF 66.67 |
| Calculator.MinimumPotScenario | mdf-trainer/src/calculator.test.js:161-167 | a 100% bet into 2.5 is 2.5, with pot odds 33.33 and MDF 50 |
| WeightedDraw.Scan | mdf-trainer/src/questionGenerator.js:45-50 | the subtracting loop stops, if at all, at an index inside the table |
| WeightedDraw.Pick | mdf-trainer/src/questionGenerator.js:35-53 | the drawn size is always one of the table's sizes |
| WeightedDraw.ScanFromReachesFirst | mdf-trainer/src/questionGenerator.js:43-52 | from any point of the loop, it stops at the first index whose cumulative weight reaches the draw, and runs off the end exactly when the total is below the draw |
| WeightedDraw.ScanIsFirstReaching | mdf-trainer/src/questionGenerator.js:42-52 | the whole loop picks the first index whose cumulative weight reaches the draw |
| WeightedDraw.PickIsWeighted | mdf-trainer/src/questionGenerator.js:42-52 | for a draw in [0, 1] the fallback `sizes[0]` is unreachable, and the size is the one at that first index |
| QuestionGenerator.RandomPot | mdf-trainer/src/questionGenerator.js:23-28 | the pot is a multiple of 0.5 within a quarter unit of the raw draw |
| QuestionGenerator.RandomPotNonNegative | mdf-trainer/src/questionGenerator.js:23-28 | a non-negative range gives a non-negative pot |
| QuestionGenerator.RandomPotInRange | mdf-trainer/src/questionGenerator.js:23-28 | when both ends of the range are multiples of 0.5, the pot lies in [min, max] |
| QuestionGenerator.RandomPotMayLeaveUnalignedRange | mdf-trainer/src/questionGenerator.js:23-28 | off the half-unit grid the range is not kept: [10.3, 10.4] can give 10.5 |
| QuestionGenerator.RandomBetSize | mdf-trainer/src/questionGenerator.js:35-53 | the drawn size is one of 20, 33, 50, 66, 75, 80, 100 |
| QuestionGenerator.RandomBetSizeByInterval | mdf-trainer/src/questionGenerator.js:35-53 | weights summing to 17 with cumulative sums 1, 4, 8, 9, 13, 14, 17 map each sub-interval of u·17 to its size |
| QuestionGenerator.ChooseBetSize | mdf-trainer/src/questionGenerator.js:69 | the JavaScript `||` never yields a falsy size: the chosen percentage is never 0, whether supplied or drawn; a missing or 0 size is exactly the size `RandomBetSize` draws from `u` |
| QuestionGenerator.GeneratePotOddsQuestion | mdf-trainer/src/questionGenerator.js:61-82 | a pot-odds question whose pot is the half-unit snap of the pot draw (`RandomPot` of the range and draw), whose bet is the calculator's amount for its pot and percentage and whose answer is the calculator's pot odds for its pot and bet, with the pot on the half-unit grid and in an aligned range, and the answer in [0, 50] |
| QuestionGenerator.GenerateMdfQuestion | mdf-trainer/src/questionGenerator.js:90-111 | the same for an MDF question: the pot is `RandomPot` of the range and draw, the bet and answer are the calculator's for it, and the answer lies in [0, 100] |
| QuestionGenerator.RecordFieldsExact | mdf-trainer/src/questionGenerator.js:76-77 | re-rounding the pot and the bet to cents in the record changes neither |
| QuestionGenerator.GenerateRandomQuestion | mdf-trainer/src/questionGenerator.js:119-127 | a coin draw below 0.5 gives a pot-odds question, otherwise an MDF one; the pot is `RandomPot` of the range and draw, the question is consistent, its pot is on the half-unit grid and inside an aligned range, and its answer lies in [0, 100], in [0, 50] for pot odds |
| QuestionGenerator.CheckAnswer | mdf-trainer/src/questionGenerator.js:137-139 | accepted exactly when the answer lies in [correct − tolerance, correct + tolerance], with a default tolerance of 0.5 |
| QuestionGenerator.CheckAnswerSymmetric | mdf-trainer/src/questionGenerator.js:137-139 | swapping the user's and the correct answer does not change the verdict |
| QuestionGenerator.CheckAnswerReflexive | mdf-trainer/src/questionGenerator.js:137-139 | the exact answer is accepted for any non-negative tolerance |
| QuestionGenerator.CheckAnswerMonotone | mdf-trainer/src/questionGenerator.js:137-139 | widening the tolerance never rejects an accepted answer |
| QuestionGenerator.CheckAnswerExamples | mdf-trainer/src/questionGenerator.test.js:121-151 | the tests' accept/reject cases, e.g. (25, 25.4) accepted and (25, 26) rejected |
| QuestionGenerator.DefaultQuestionsPositive | mdf-trainer/src/questionGenerator.test.js:14-23 | with the default options both generators give a pot in [4.5, 400], a positive bet and a positive answer, below 100 for pot odds and at most 100 for MDF |
| QuestionGenerator.PotOddsFromDefaults | mdf-trainer/src/questionGenerator.test.js:14-23 | a pot in [4.5, 400] with a bet of at least 0.9 and at most half a cent above the pot gives pot odds in (0, 50] |
| QuestionGenerator.MdfFromDefaults | mdf-trainer/src/questionGenerator.test.js:56-66 | a pot of at least 4.5 with a bet of at least 0.9 and at most half a cent above the pot gives an MDF in (0, 100] |
| QuestionGenerator.AmountTracksPercentage | mdf-trainer/src/calculator.js:69-71 | for a pot above 0.5, amount/pot is within 0.01 of percentage/100 |
| QuestionGenerator.BetTracksPercentage | mdf-trainer/src/questionGenerator.test.js:36-43 | in a consistent question with a pot above 0.5, bet/pot is within 0.01 of the requested share |
| QuestionGenerator.AnswerMatchesFormula | mdf-trainer/src/questionGenerator.test.js:178-193 | the stored answer is within 0.005 of the unrounded formula on the stored pot and bet |
| QuestionGenerator.ThirdPotMdfAbove74 | mdf-trainer/src/questionGenerator.js:97-101 | a 33% bet gives an MDF of at least 74 on any pot of 0.5 or more |
| QuestionGenerator.PotSizedMdfIs50 | mdf-trainer/src/questionGenerator.js:97-101 | a pot-sized bet gives an MDF of exactly 50 on any positive half-unit pot |
| QuestionGenerator.SamePotSmallerPctNoLowerMdf | mdf-trainer/src/questionGenerator.js:97-101 | on one non-negative pot, a smaller bet-size percentage never gives a lower MDF |
| QuestionGenerator.SmallerBetHigherMdf | mdf-trainer/src/questionGenerator.test.js:88-95 | an MDF question for a 33% bet has a higher answer than one for a 100% bet, whatever pots are drawn from positive aligned ranges |
| BrowserQuestions.CopiesAgree | mdf-trainer/public/app.js:7-87 | the page's copies of pot odds, MDF, bet amount, pot draw and answer check equal the module versions on every input |
| BrowserQuestions.RandomBetSize | mdf-trainer/public/app.js:35-53 | the drawn size is in the selected table; without occasional sizes it is one of 33, 50, 75, 100 |
| BrowserQuestions.StandardBetSizeByInterval | mdf-trainer/public/app.js:35-53 | weights 3, 4, 4, 3 (total 14) map each sub-interval of u·14 to 33, 50, 75 or 100 |
| BrowserQuestions.AllBetSizesByInterval | mdf-trainer/public/app.js:35-53 | weights 3, 4, 4, 3, 1, 1 (total 16) map each sub-interval of u·16 to one of the six sizes, and the fallback is unreachable for every draw in [0, 1] |
| BrowserQuestions.GenerateQuestion | mdf-trainer/public/app.js:55-83 | type "pot-odds" gives a pot-odds question and any other string an MDF question, with the pot the page's `RandomPot` of the range and draw, consistent and in range; a missing or zero size is exactly the one `RandomBetSize` draws from the six-size table |
| BrowserQuestions.RecordFieldsExact | mdf-trainer/public/app.js:69-78 | the stored pot and bet are exactly the ones the answer was computed from |
| BrowserQuestions.NewQuestion | mdf-trainer/public/app.js:160-173 | the new question's kind follows the selection, or the coin when "random" is selected; only the saved pot range is passed, so the size is always the one drawn from the six-size table; the pot is `RandomPot` of the saved range and the draw, and an aligned range holds it |
| BrowserQuestions.SameQuestionAsModule | mdf-trainer/public/app.js:55-83 | with a supplied bet size, the page's generator and the module's generators give the same question from the same draws |
| Score.ResetStats | mdf-trainer/public/app.js:108-115 | reset zeroes both tallies, which satisfies correct ≤ total |
| Score.SubmitAnswer | mdf-trainer/public/app.js:196-230 | a non-number leaves the score unchanged; a number adds one to the question kind's total and one to its correct count exactly when `checkAnswer` accepts, leaves the other kind alone, and keeps correct ≤ total |
| Score.Accuracy | mdf-trainer/public/app.js:117-123 | 0 before any answer; otherwise the integer nearest to correct/total·100 |
| Score.AccuracyIsPercentage | mdf-trainer/public/app.js:117-123 | when correct ≤ total, the accuracy lies in [0, 100] |
| Score.ReplayKeepsValid | mdf-trainer/public/app.js:196-230 | any sequence of submissions and resets keeps correct ≤ total for both kinds |
| Score.ReachableScoresValid | mdf-trainer/public/app.js:89-94 | from the initial all-zero score, every reachable score satisfies correct ≤ total |
| Score.TotalsCountAnswers | mdf-trainer/public/app.js:205-230 | between resets, the two totals together grow by exactly the number of numeric answers |

## Left out

- Page rendering is not modelled: reading and writing page elements, event listeners, focus, and the display text of the score and feedback. It is interface code with no logic of its own.
- Saving and loading the score and settings in browser storage is not modelled, because it is I/O. Loaded data is not validated, so correct ≤ total is proved only for scores reached from the initial or a reset score.
- The 1.5-second auto-advance after a submission is not modelled. It is timing only.
- `Math.random` itself is not modelled; its draws are parameters. The statistical tests of pot variety and of a mix of question kinds cannot be stated for a single run. What stands in for them is the window of `QuestionGenerator.RandomPot`, which places the pot within a quarter unit of u·(max − min) + min, and the `draws.kind < 0.5` rule of `QuestionGenerator.GenerateRandomQuestion`. The "most sizes standard" test holds on every run, because `QuestionGenerator.RandomBetSize` proves that every drawn size is in the standard list.
- IEEE-754 double arithmetic is not modelled, because every value is an exact real. A double can land on the other side of an exact .005 tie, and `Infinity` or `NaN` results are excluded by the preconditions.
- Number-to-string formatting is not modelled because it is a foreign conversion. This covers the question text and the "x:1" ratio string; `Calculator.PotOddsRatio` returns the ratio's numeric part.
- `parseFloat` is not modelled: the parsed answer is an `Option<real>` input. An answer that parses to `Infinity` is not representable.
- Negative pot ranges are not modelled: the generators require a non-negative range. A negative pot with a positive size gives a non-positive bet, so the calculator returns the fixed answers 0 and 100. The bounds on the answers need a non-negative pot. A division by zero needs a negative supplied size as well.
- `QuestionGenerator.SmallerBetHigherMdf`: proved for the 33% and 100% sizes that the test compares, not for every pair of percentages, because two independently drawn pots can tie or reverse nearby sizes (51% on a pot of 0.5 bets 0.26, a larger share than 51.5% of 400). On one pot, `QuestionGenerator.SamePotSmallerPctNoLowerMdf` covers every pair of percentages, but only as never lower, since cent rounding can tie them.
- mdf-trainer/demo.js is not part of this model; it only prints examples.

=== FILE: browser_questions.dfy ===
/**
 The question side of the browser application (mdf-trainer/public/app.js):
 its own copies of the calculator, the pot draw and the answer check, a
 bet-size table of four standard and two occasional sizes, and
 `generateQuestion`, which takes the question type as a string.

 Page reads and writes are not modelled; the radio-button selection and the
 draws of `Math.random()` are parameters.
 */
module BrowserQuestions {
  import opened JsMath
  import opened Wrappers
  import Calculator
  import WeightedDraw
  import QG = QuestionGenerator

  // The copies of the calculator and helpers that the page carries.

  function PotOdds(pot: real, bet: real): real
    requires Calculator.PotOddsDefined(pot, bet)
  {
    if bet <= 0.0 then 0.0
    else
      var potAfterCall := pot + bet + bet;
      var potOdds := (bet / potAfterCall) * 100.0;
      Round2(potOdds)
  }

  function Mdf(pot: real, bet: real): real
    requires Calculator.MdfDefined(pot, bet)
  {
    if bet <= 0.0 then 100.0
    else
      var mdf := (1.0 - (bet / (pot + bet))) * 100.0;
      Round2(mdf)
  }

  function BetAmount(pot: real, percentage: real): real {
    Round2(pot * percentage / 100.0)
  }

  function RandomPot(min: real, max: real, u: real): real {
    var pot := u * (max - min) + min;
    RoundHalf(pot)
  }

  function CheckAnswer(userAnswer: real, correctAnswer: real, tolerance: real := 0.5): bool {
    Abs(userAnswer - correctAnswer) <= tolerance
  }

  /** The page's copies compute exactly what the calculator and generator modules compute, on every input. */
  lemma CopiesAgree(pot: real, bet: real, percentage: real, min: real, max: real, u: real,
                    userAnswer: real, correctAnswer: real, tolerance: real)
    ensures Calculator.PotOddsDefined(pot, bet) ==> PotOdds(pot, bet) == Calculator.PotOdds(pot, bet)
    ensures Calculator.MdfDefined(pot, bet) ==> Mdf(pot, bet) == Calculator.Mdf(pot, bet)
    ensures BetAmount(pot, percentage) == Calculator.BetAmount(pot, percentage)
    ensures RandomPot(min, max, u) == QG.RandomPot(min, max, u)
    ensures CheckAnswer(userAnswer, correctAnswer, tolerance) == QG.CheckAnswer(userAnswer, correctAnswer, tolerance)
  {
  }

  // The page's bet-size table.

  const StandardBetSizes: seq<int> := [33, 50, 75, 100]
  const OccasionalBetSizes: seq<int> := [20, 66]

  function BetSizes(includeOccasional: bool): seq<int> {
    if includeOccasional then StandardBetSizes + OccasionalBetSizes else StandardBetSizes
  }

  function BetSizeWeights(includeOccasional: bool): seq<nat> {
    if includeOccasional then [3, 4, 4, 3, 1, 1] else [3, 4, 4, 3]
  }

  /** `generateRandomBetSize(includeOccasional)`: the size picked by the draw `u`. */
  function RandomBetSize(u: real, includeOccasional: bool := true): (size: int)
    ensures size in BetSizes(includeOccasional)
    ensures !includeOccasional ==> size in StandardBetSizes
  {
    var sizes := BetSizes(includeOccasional);
    var weights := BetSizeWeights(includeOccasional);
    WeightedDraw.Pick(sizes, weights, u)
  }

  /**
   Without the occasional sizes the weights 3, 4, 4, 3 have cumulative sums
   3, 7, 11, 14: the draw `u * 14` selects 33, 50, 75 or 100 by the interval
   it falls in.
   */
  lemma StandardBetSizeByInterval(u: real)
    requires QG.IsUniformDraw(u)
    ensures var r := u * 14.0;
            var size := RandomBetSize(u, false);
            && (r <= 3.0 ==> size == 33)
            && (3.0 < r <= 7.0 ==> size == 50)
            && (7.0 < r <= 11.0 ==> size == 75)
            && (11.0 < r ==> size == 100)
  {
    var w := BetSizeWeights(false);
    assert WeightedDraw.Prefix(w, 1) == 3;
    assert WeightedDraw.Prefix(w, 2) == 7;
    assert WeightedDraw.Prefix(w, 3) == 11;
    assert WeightedDraw.Prefix(w, 4) == 14;
    assert WeightedDraw.Total(w) == 14;
    WeightedDraw.PickIsWeighted(BetSizes(false), w, u);
  }

  /**
   With the occasional sizes the weights 3, 4, 4, 3, 1, 1 have cumulative
   sums 3, 7, 11, 14, 15, 16: the draw `u * 16` selects one of the six sizes
   by the interval it falls in, and the fallback is never taken.
   */
  lemma AllBetSizesByInterval(u: real)
    requires 0.0 <= u <= 1.0
    ensures var r := u * 16.0;
            var size := RandomBetSize(u, true);
            && (r <= 3.0 ==> size == 33)
            && (3.0 < r <= 7.0 ==> size == 50)
            && (7.0 < r <= 11.0 ==> size == 75)
            && (11.0 < r <= 14.0 ==> size == 100)
            && (14.0 < r <= 15.0 ==> size == 20)
            && (15.0 < r ==> size == 66)
    ensures WeightedDraw.Scan(BetSizeWeights(true), 0, u * 16.0).Some?
  {
    var w := BetSizeWeights(true);
    assert WeightedDraw.Prefix(w, 1) == 3;
    assert WeightedDraw.Prefix(w, 2) == 7;
    assert WeightedDraw.Prefix(w, 3) == 11;
    assert WeightedDraw.Prefix(w, 4) == 14;
    assert WeightedDraw.Prefix(w, 5) == 15;
    assert WeightedDraw.Prefix(w, 6) == 16;
    assert WeightedDraw.Total(w) == 16;
    WeightedDraw.PickIsWeighted(BetSizes(true), w, u);
  }

  /**
   `generateQuestion(type, options)`: a pot-odds question when the type is
   "pot-odds" and an MDF question for any other type string. The page always
   draws from the table with the occasional sizes.
   */
  function GenerateQuestion(questionType: string, opts: QG.Options, draws: QG.Draws): (q: QG.Question)
    requires QG.NonNegativeRange(opts) && QG.IsUniformDraw(draws.pot)
    ensures q.kind == (if questionType == "pot-odds" then QG.PotOddsQuestion else QG.MdfQuestion)
    ensures QG.Consistent(q)
    ensures IsHalfStep(q.pot)
    ensures opts.betSizePercentage.Some? && opts.betSizePercentage.value != 0.0 ==>
              q.betSizePercentage == opts.betSizePercentage.value
    ensures opts.betSizePercentage.None? || opts.betSizePercentage.value == 0.0 ==>
              q.betSizePercentage == RandomBetSize(draws.betSize) as real
    ensures QG.AlignedRange(opts) ==> opts.minPot <= q.pot <= opts.maxPot
    ensures q.pot == RandomPot(opts.minPot, opts.maxPot, draws.pot)
  {
    var pot := RandomPot(opts.minPot, opts.maxPot, draws.pot);
    var betSize :=
      if opts.betSizePercentage.Some? && opts.betSizePercentage.value != 0.0
      then opts.betSizePercentage.value
      else RandomBetSize(draws.betSize) as real;
    var bet := BetAmount(pot, betSize);
    CopiesAgree(pot, bet, betSize, opts.minPot, opts.maxPot, draws.pot, 0.0, 0.0, 0.0);
    QG.RecordFieldsExact(opts, draws);
    RecordFieldsExact(pot, betSize);
    if questionType == "pot-odds" then
      QG.Question(QG.PotOddsQuestion, Round2(pot), Round2(bet), betSize, PotOdds(pot, bet))
    else
      QG.Question(QG.MdfQuestion, Round2(pot), Round2(bet), betSize, Mdf(pot, bet))
  }

  /** The pot and bet stored in the page's question record are those the answer was computed from. */
  lemma RecordFieldsExact(pot: real, betSize: real)
    requires IsHalfStep(pot)
    ensures Round2(pot) == pot
    ensures Round2(BetAmount(pot, betSize)) == BetAmount(pot, betSize)
  {
    HalfStepIsCents(pot);
    Round2FixesCents(pot);
    Round2FixesCents(BetAmount(pot, betSize));
  }

  /**
   The question type the page asks for: the selected radio value, or a coin
   flip between "pot-odds" and "mdf" when "random" is selected.
   */
  function SelectedType(selection: string, coin: real): (questionType: string)
    ensures selection == "random" ==> questionType == (if coin < 0.5 then "pot-odds" else "mdf")
    ensures selection != "random" ==> questionType == selection
  {
    if selection == "random" then (if coin < 0.5 then "pot-odds" else "mdf") else selection
  }

  /**
   `newQuestion` without the page updates: the question for the current
   selection, generated from the saved pot range alone, so the bet size is
   always drawn from the six-size table.
   */
  function NewQuestion(selection: string, minPot: real, maxPot: real, draws: QG.Draws): (q: QG.Question)
    requires minPot >= 0.0 && maxPot >= 0.0 && QG.IsUniformDraw(draws.pot)
    ensures selection == "random" ==>
              q.kind == (if draws.kind < 0.5 then QG.PotOddsQuestion else QG.MdfQuestion)
    ensures selection == "pot-odds" ==> q.kind == QG.PotOddsQuestion
    ensures selection != "random" && selection != "pot-odds" ==> q.kind == QG.MdfQuestion
    ensures QG.Consistent(q)
    ensures q.pot == RandomPot(minPot, maxPot, draws.pot)
    ensures q.betSizePercentage == RandomBetSize(draws.betSize) as real
    ensures q.betSizePercentage.Floor in BetSizes(true)
    ensures 0.0 <= minPot <= maxPot && IsHalfStep(minPot) && IsHalfStep(maxPot) ==> minPot <= q.pot <= maxPot
  {
    GenerateQuestion(SelectedType(selection, draws.kind), QG.Options(minPot, maxPot, None), draws)
  }

  /**
   When the bet size is supplied, the page's generator and the module's
   generators produce the same question from the same draws; only the
   tables they draw bet sizes from differ.
   */
  lemma SameQuestionAsModule(questionType: string, opts: QG.Options, draws: QG.Draws)
    requires QG.NonNegativeRange(opts) && QG.IsUniformDraw(draws.pot)
    requires opts.betSizePercentage.Some? && opts.betSizePercentage.value != 0.0
    ensures questionType == "pot-odds" ==>
              GenerateQuestion(questionType, opts, draws) == QG.GeneratePotOddsQuestion(opts, draws)
    ensures questionType != "pot-odds" ==>
              GenerateQuestion(questionType, opts, draws) == QG.GenerateMdfQuestion(opts, draws)
  {
    var pot := RandomPot(opts.minPot, opts.maxPot, draws.pot);
    var bet := BetAmount(pot, opts.betSizePercentage.value);
    CopiesAgree(pot, bet, opts.betSizePercentage.value, opts.minPot, opts.maxPot, draws.pot, 0.0, 0.0, 0.0);
  }
}

=== FILE: calculator.dfy ===
/**
 The pot-odds and minimum-defense-frequency (MDF) formulas of the trainer's
 calculator (mdf-trainer/src/calculator.js).

 All amounts are exact reals. Each operation first handles a non-positive
 bet (or pot) by returning a fixed value, then evaluates its formula and
 rounds it the way the source does.
 */
module Calculator {
  import opened JsMath
  import opened RealArith

  /** The division in pot odds is defined: JavaScript would yield Infinity otherwise. */
  predicate PotOddsDefined(pot: real, bet: real) {
    bet <= 0.0 || pot + bet + bet != 0.0
  }

  /** The division in MDF is defined. */
  predicate MdfDefined(pot: real, bet: real) {
    bet <= 0.0 || pot + bet != 0.0
  }

  /** The caller's share of the pot after calling, as an unrounded percentage. */
  function PotOddsShare(pot: real, bet: real): real
    requires pot + 2.0 * bet != 0.0
  {
    bet / (pot + 2.0 * bet) * 100.0
  }

  /** The share of the pot-plus-bet that is the original pot, as an unrounded percentage. */
  function DefenseShare(pot: real, bet: real): real
    requires pot + bet != 0.0
  {
    pot / (pot + bet) * 100.0
  }

  /** `calculatePotOdds`: the cost of calling over the pot after the call, in percent, to cents. */
  function PotOdds(pot: real, bet: real): (odds: real)
    requires PotOddsDefined(pot, bet)
    ensures bet <= 0.0 ==> odds == 0.0
    ensures bet > 0.0 ==> NearestCents(odds, PotOddsShare(pot, bet))
  {
    if bet <= 0.0 then 0.0
    else
      var potAfterCall := pot + bet + bet;
      var potOdds := (bet / potAfterCall) * 100.0;
      Round2(potOdds)
  }

  /**
   The numeric part `x` of `calculatePotOddsRatio`'s "x:1" answer: what the
   caller can win per unit called, to tenths, and 0 for a non-positive bet.
   */
  function PotOddsRatio(pot: real, bet: real): (ratio: real)
    ensures bet <= 0.0 ==> ratio == 0.0
    ensures bet > 0.0 ==> IsWhole(ratio * 10.0)
    ensures bet > 0.0 ==> (pot + bet) / bet - 0.05 < ratio <= (pot + bet) / bet + 0.05
  {
    if bet <= 0.0 then 0.0
    else
      var potAfterCall := pot + bet + bet;
      Round1((potAfterCall - bet) / bet)
  }

  /** `calculateMDF`: the share of the defending range that must continue, in percent, to cents. */
  function Mdf(pot: real, bet: real): (mdf: real)
    requires MdfDefined(pot, bet)
    ensures bet <= 0.0 ==> mdf == 100.0
    ensures bet > 0.0 ==> NearestCents(mdf, DefenseShare(pot, bet))
  {
    if bet <= 0.0 then 100.0
    else
      var mdf := (1.0 - (bet / (pot + bet))) * 100.0;
      assert mdf == DefenseShare(pot, bet) by {
        Complement(pot, bet);
      }
      Round2(mdf)
  }

  /** `calculateBetSizePercentage`: the bet as a whole percentage of the pot, 0 for an empty pot. */
  function BetSizePercentage(pot: real, bet: real): (pct: int)
    ensures pot <= 0.0 ==> pct == 0
    ensures pot > 0.0 ==> bet / pot * 100.0 - 0.5 < pct as real <= bet / pot * 100.0 + 0.5
  {
    if pot <= 0.0 then 0
    else Round((bet / pot) * 100.0)
  }

  /** `calculateBetAmount`: the given percentage of the pot, to cents. */
  function BetAmount(pot: real, percentage: real): (amount: real)
    ensures NearestCents(amount, pot * percentage / 100.0)
  {
    Round2(pot * percentage / 100.0)
  }

  // ---------------------------------------------------------------------------
  // Properties
  // ---------------------------------------------------------------------------

  /** For a positive bet, pot odds are the unrounded share rounded to cents. */
  lemma PotOddsIsRoundedShare(pot: real, bet: real)
    requires bet > 0.0 && pot + 2.0 * bet != 0.0
    ensures PotOdds(pot, bet) == Round2(PotOddsShare(pot, bet))
  {
    Round2Unique(PotOddsShare(pot, bet), PotOdds(pot, bet));
  }

  /** For a positive bet, MDF is the unrounded defense share rounded to cents. */
  lemma MdfIsRoundedShare(pot: real, bet: real)
    requires bet > 0.0 && pot + bet != 0.0
    ensures Mdf(pot, bet) == Round2(DefenseShare(pot, bet))
  {
    Round2Unique(DefenseShare(pot, bet), Mdf(pot, bet));
  }

  /** For a non-negative pot, pot odds never exceed 50%: the caller puts in at most half the final pot. */
  lemma PotOddsBounds(pot: real, bet: real)
    requires pot >= 0.0
    ensures PotOddsDefined(pot, bet)
    ensures 0.0 <= PotOdds(pot, bet) <= 50.0
  {
    if bet > 0.0 {
      var d := pot + 2.0 * bet;
      QuotientBounds(bet, d, 0.0, 0.5);
      assert 0.0 <= PotOddsShare(pot, bet) <= 50.0;
      PotOddsIsRoundedShare(pot, bet);
      Round2Monotone(0.0, PotOddsShare(pot, bet));
      Round2Monotone(PotOddsShare(pot, bet), 50.0);
      Round2FixesCents(0.0);
      Round2FixesCents(50.0);
    }
  }

  /** For a non-negative pot, MDF is a percentage. */
  lemma MdfBounds(pot: real, bet: real)
    requires pot >= 0.0
    ensures MdfDefined(pot, bet)
    ensures 0.0 <= Mdf(pot, bet) <= 100.0
  {
    if bet > 0.0 {
      var d := pot + bet;
      QuotientBounds(pot, d, 0.0, 1.0);
      assert 0.0 <= DefenseShare(pot, bet) <= 100.0;
      MdfIsRoundedShare(pot, bet);
      Round2Monotone(0.0, DefenseShare(pot, bet));
      Round2Monotone(DefenseShare(pot, bet), 100.0);
      Round2FixesCents(0.0);
      Round2FixesCents(100.0);
    }
  }

  /** With the pot fixed, a larger bet strictly lowers the unrounded MDF. */
  lemma DefenseShareStrictlyDecreasing(pot: real, bet1: real, bet2: real)
    requires pot > 0.0
    requires 0.0 < bet1 < bet2
    ensures DefenseShare(pot, bet2) < DefenseShare(pot, bet1)
  {
    assert pot * (pot + bet1) < pot * (pot + bet2);
    CrossCompare(pot, pot + bet2, pot, pot + bet1);
  }

  /** With the pot fixed, a larger bet never raises the rounded MDF. */
  lemma MdfNonIncreasing(pot: real, bet1: real, bet2: real)
    requires pot > 0.0
    requires bet1 <= bet2
    ensures MdfDefined(pot, bet1) && MdfDefined(pot, bet2)
    ensures Mdf(pot, bet2) <= Mdf(pot, bet1)
  {
    if bet1 <= 0.0 {
      MdfBounds(pot, bet2);
    } else if bet1 < bet2 {
      DefenseShareStrictlyDecreasing(pot, bet1, bet2);
      MdfIsRoundedShare(pot, bet1);
      MdfIsRoundedShare(pot, bet2);
      Round2Monotone(DefenseShare(pot, bet2), DefenseShare(pot, bet1));
    }
  }

  /** With the pot fixed, a larger bet never lowers the rounded pot odds. */
  lemma PotOddsNonDecreasing(pot: real, bet1: real, bet2: real)
    requires pot >= 0.0
    requires bet1 <= bet2
    ensures PotOddsDefined(pot, bet1) && PotOddsDefined(pot, bet2)
    ensures PotOdds(pot, bet1) <= PotOdds(pot, bet2)
  {
    PotOddsBounds(pot, bet2);
    if bet1 > 0.0 && bet1 < bet2 {
      assert bet1 * (pot + 2.0 * bet2) <= bet2 * (pot + 2.0 * bet1) by {
        assert bet1 * (pot + 2.0 * bet2) == bet1 * pot + 2.0 * bet1 * bet2;
        assert bet2 * (pot + 2.0 * bet1) == bet2 * pot + 2.0 * bet1 * bet2;
        assert bet1 * pot <= bet2 * pot;
      }
      CrossCompare(bet1, pot + 2.0 * bet1, bet2, pot + 2.0 * bet2);
      assert PotOddsShare(pot, bet1) <= PotOddsShare(pot, bet2);
      PotOddsIsRoundedShare(pot, bet1);
      PotOddsIsRoundedShare(pot, bet2);
      Round2Monotone(PotOddsShare(pot, bet1), PotOddsShare(pot, bet2));
    }
  }

  /**
   The unrounded "x:1" ratio and the unrounded pot odds describe the same
   price: getting x to 1 means paying 1 part of x + 1.
   */
  lemma RatioMatchesPotOdds(pot: real, bet: real)
    requires pot >= 0.0 && bet > 0.0
    ensures PotOddsShare(pot, bet) * ((pot + bet) / bet + 1.0) == 100.0
  {
    var d := pot + 2.0 * bet;
    assert (pot + bet) / bet + 1.0 == d / bet by {
      SplitWhole(pot + bet, bet);
    }
    assert bet / d * (d / bet) == 1.0;
  }

  /**
   Converting a whole percentage to an amount and back recovers it whenever
   the pot exceeds one unit: rounding the amount to cents moves the
   percentage by less than half a point.
   */
  lemma BetSizeRoundTrip(pot: real, pct: int)
    requires pot > 1.0
    ensures BetSizePercentage(pot, BetAmount(pot, pct as real)) == pct
  {
    var exact := pot * (pct as real) / 100.0;
    var bet := BetAmount(pot, pct as real);
    var err := bet - exact;
    assert -0.005 < err <= 0.005;
    var back := bet / pot * 100.0;
    assert back == pct as real + err * 100.0 / pot by {
      assert bet == exact + err;
      assert exact / pot * 100.0 == pct as real;
      assert (exact + err) / pot == exact / pot + err / pot;
    }
    assert -0.5 < err * 100.0 / pot < 0.5 by {
      var e := err * 100.0;
      assert -0.5 < e <= 0.5;
      assert e / pot * pot == e;
      if e >= 0.0 {
        assert e / pot < 0.5;
      } else {
        assert e / pot > -0.5;
      }
    }
    RoundUnique(back, pct);
  }

  /** The worked pot-odds, ratio and MDF examples of the calculator's tests. */
  lemma CalculatorExamples()
    ensures PotOdds(100.0, 50.0) == 25.0
    ensures PotOdds(100.0, 100.0) == 33.33
    ensures PotOdds(100.0, 33.0) == 19.88
    ensures PotOdds(100.0, 75.0) == 30.0
    ensures PotOdds(4.5, 2.25) == 25.0
    ensures PotOdds(100.0, 0.0) == 0.0
    ensures PotOddsRatio(100.0, 50.0) == 3.0
    ensures PotOddsRatio(100.0, 100.0) == 2.0
    ensures Mdf(100.0, 50.0) == 66.67
    ensures Mdf(100.0, 100.0) == 50.0
    ensures Mdf(100.0, 33.0) == 75.19
    ensures Mdf(100.0, 75.0) == 57.14
    ensures Mdf(4.5, 4.5) == 50.0
    ensures Mdf(100.0, 0.0) == 100.0
  {
  }

  /** The bet-size percentage examples: standard and non-standard sizes of a 100 pot, and a zero pot. */
  lemma BetSizePercentageExamples()
    ensures BetSizePercentage(100.0, 50.0) == 50
    ensures BetSizePercentage(100.0, 33.0) == 33
    ensures BetSizePercentage(100.0, 75.0) == 75
    ensures BetSizePercentage(100.0, 100.0) == 100
    ensures BetSizePercentage(100.0, 66.0) == 66
    ensures BetSizePercentage(100.0, 20.0) == 20
    ensures BetSizePercentage(0.0, 50.0) == 0
  {
  }

  /** The bet amounts of the standard sizes on a pot of 100. */
  lemma BetAmountExamples()
    ensures BetAmount(100.0, 50.0) == 50.0
    ensures BetAmount(100.0, 33.0) == 33.0
    ensures BetAmount(100.0, 75.0) == 75.0
    ensures BetAmount(100.0, 100.0) == 100.0
  {
  }

  /** The bet amounts on fractional pots. */
  lemma FractionalPotBetAmounts()
    ensures BetAmount(45.5, 50.0) == 22.75
    ensures BetAmount(4.5, 100.0) == 4.5
  {
  }

  /** A 75% bet into a pot of 4.5: the amount is rounded to cents before the answers are computed. */
  lemma SmallPotScenario()
    ensures BetAmount(4.5, 75.0) == 3.38
    ensures PotOdds(4.5, 3.38) == 30.02
    ensures Mdf(4.5, 3.38) == 57.11
  {
  }

  /** A half-pot bet into a pot of 200. */
  lemma DeepStackScenario()
    ensures BetAmount(200.0, 50.0) == 100.0
    ensures PotOdds(200.0, 100.0) == 25.0
    ensures Mdf(200.0, 100.0) == 66.67
  {
  }

  /** A pot-sized bet into the smallest pot of 2.5. */
  lemma MinimumPotScenario()
    ensures BetAmount(2.5, 100.0) == 2.5
    ensures PotOdds(2.5, 2.5) == 33.33
    ensures Mdf(2.5, 2.5) == 50.0
  {
  }
}

=== FILE: js_math.dfy ===
/**
 The JavaScript number idioms the trainer relies on, over exact reals.

 `Math.round(x)` returns the integer nearest to `x`, with halves rounded
 toward positive infinity. The trainer mostly uses it scaled, as
 `Math.round(x * 100) / 100` (cents), `Math.round(x * 10) / 10` (tenths)
 or `Math.round(x * 2) / 2` (half units); the bet-size percentage and the
 score's accuracy use it unscaled, as a whole percentage
 `Math.round((a / b) * 100)`.
 */
module JsMath {

  /** `Math.round`: the nearest integer, ties going up. */
  function Round(x: real): (n: int)
    ensures x - 0.5 < n as real <= x + 0.5
  {
    (x + 0.5).Floor
  }

  /** True iff `x` has no fractional part. */
  predicate IsWhole(x: real) {
    x.Floor as real == x
  }

  /** True iff `x` is a whole number of hundredths. */
  predicate IsCents(x: real) {
    IsWhole(x * 100.0)
  }

  /** True iff `x` is a whole number of halves. */
  predicate IsHalfStep(x: real) {
    IsWhole(x * 2.0)
  }

  function Abs(x: real): (a: real)
    ensures a >= 0.0
    ensures a == x || a == -x
  {
    if x < 0.0 then -x else x
  }

  /** `r` is the whole number of cents nearest to `x`, ties going up. */
  predicate NearestCents(r: real, x: real) {
    IsCents(r) && x - 0.005 < r <= x + 0.005
  }

  /** `Math.round(x * 100) / 100`: rounding to cents. */
  function Round2(x: real): (r: real)
    ensures NearestCents(r, x)
  {
    Round(x * 100.0) as real / 100.0
  }

  /** `Math.round(x * 10) / 10`: rounding to tenths. */
  function Round1(x: real): (r: real)
    ensures IsWhole(r * 10.0)
    ensures x - 0.05 < r <= x + 0.05
  {
    Round(x * 10.0) as real / 10.0
  }

  /** `Math.round(x * 2) / 2`: snapping to the half-unit grid. */
  function RoundHalf(x: real): (r: real)
    ensures IsHalfStep(r)
    ensures x - 0.25 < r <= x + 0.25
  {
    Round(x * 2.0) as real / 2.0
  }

  /** `Math.round` leaves whole numbers alone. */
  lemma RoundWhole(x: real)
    requires IsWhole(x)
    ensures Round(x) as real == x
  {
    RoundUnique(x, x.Floor);
  }

  /** `Math.round` never reverses the order of its arguments. */
  lemma RoundMonotone(x: real, y: real)
    requires x <= y
    ensures Round(x) <= Round(y)
  {
  }

  /** An integer lies within the rounding window of exactly one value: itself. */
  lemma RoundUnique(x: real, n: int)
    requires x - 0.5 < n as real <= x + 0.5
    ensures Round(x) == n
  {
  }

  /** Exactly one whole number of cents lies in the rounding window of `x`. */
  lemma Round2Unique(x: real, r: real)
    requires NearestCents(r, x)
    ensures r == Round2(x)
  {
    var n := (r * 100.0).Floor;
    assert r == n as real / 100.0;
    RoundUnique(x * 100.0, n);
  }

  lemma Round2Monotone(x: real, y: real)
    requires x <= y
    ensures Round2(x) <= Round2(y)
  {
    RoundMonotone(x * 100.0, y * 100.0);
  }

  /** Amounts already in cents are left unchanged by `Round2`. */
  lemma Round2FixesCents(x: real)
    requires IsCents(x)
    ensures Round2(x) == x
  {
    RoundWhole(x * 100.0);
  }

  lemma Round2Idempotent(x: real)
    ensures Round2(Round2(x)) == Round2(x)
  {
    Round2FixesCents(Round2(x));
  }

  /** A whole number of halves is in particular a whole number of cents. */
  lemma HalfStepIsCents(x: real)
    requires IsHalfStep(x)
    ensures IsCents(x)
  {
    var k := (x * 2.0).Floor;
    assert x * 100.0 == (50 * k) as real;
  }

  /** `RoundHalf` is monotone and leaves the half-unit grid alone. */
  lemma RoundHalfMonotone(x: real, y: real)
    requires x <= y
    ensures RoundHalf(x) <= RoundHalf(y)
  {
    RoundMonotone(x * 2.0, y * 2.0);
  }

  lemma RoundHalfFixesGrid(x: real)
    requires IsHalfStep(x)
    ensures RoundHalf(x) == x
  {
    RoundWhole(x * 2.0);
  }
}

=== FILE: question_generator.dfy ===
/**
 The drill generator of mdf-trainer/src/questionGenerator.js: a pot drawn
 from a range and snapped to half units, a bet-size percentage drawn from a
 weighted table (or supplied by the caller), the bet amount and the correct
 answer computed by the calculator, and a tolerance check on the user's
 answer.

 Every `Math.random()` call of the source is an explicit draw in [0, 1).
 The question's display text is not modelled.
 */
module QuestionGenerator {
  import opened JsMath
  import opened Wrappers
  import opened Calculator
  import opened RealArith
  import WeightedDraw

  /** The bet sizes, in percent of the pot, that the generator draws from. */
  const StandardBetSizes: seq<int> := [20, 33, 50, 66, 75, 80, 100]

  /** Their relative weights: 33%, 50%, 75% and 100% are the common sizes. */
  const StandardWeights: seq<nat> := [1, 3, 4, 1, 4, 1, 3]

  const MaxPot: real := 400.0
  const TypicalMinPot: real := 4.5

  datatype QuestionKind = PotOddsQuestion | MdfQuestion

  /** A generated drill: the pot, the bet, the bet as a percentage of the pot, and the correct answer. */
  datatype Question = Question(kind: QuestionKind, pot: real, bet: real, betSizePercentage: real, answer: real)

  /**
   Generation options. `betSizePercentage` is `None` for the default `null`;
   like any other falsy value, a supplied 0 also means "draw one".
   */
  datatype Options = Options(minPot: real, maxPot: real, betSizePercentage: Option<real>)

  const DefaultOptions: Options := Options(TypicalMinPot, MaxPot, None)

  /** The uniform draws in [0, 1): question kind, pot, bet size. */
  datatype Draws = Draws(kind: real, pot: real, betSize: real)

  /** A draw as `Math.random()` produces it. */
  predicate IsUniformDraw(u: real) {
    0.0 <= u < 1.0
  }

  /** A pot range neither of whose ends is negative. */
  predicate NonNegativeRange(opts: Options) {
    opts.minPot >= 0.0 && opts.maxPot >= 0.0
  }

  /** A range `[minPot, maxPot]` whose ends lie on the half-unit grid. */
  predicate AlignedRange(opts: Options) {
    0.0 <= opts.minPot <= opts.maxPot && IsHalfStep(opts.minPot) && IsHalfStep(opts.maxPot)
  }

  /** `generateRandomPot`: a point of `[min, max)` chosen by `u`, snapped to the nearest half unit. */
  function RandomPot(min: real, max: real, u: real): (pot: real)
    ensures IsHalfStep(pot)
    ensures u * (max - min) + min - 0.25 < pot <= u * (max - min) + min + 0.25
  {
    var pot := u * (max - min) + min;
    RoundHalf(pot)
  }

  /** `generateRandomBetSize`: the standard size picked by the draw `u`. */
  function RandomBetSize(u: real): (size: int)
    ensures size in StandardBetSizes
  {
    WeightedDraw.Pick(StandardBetSizes, StandardWeights, u)
  }

  /** `betSizePercentage || generateRandomBetSize()`: the supplied size unless it is missing or 0. */
  function ChooseBetSize(supplied: Option<real>, u: real): (pct: real)
    ensures supplied.Some? && supplied.value != 0.0 ==> pct == supplied.value
    ensures supplied.None? || supplied.value == 0.0 ==> pct == RandomBetSize(u) as real
    ensures pct != 0.0
  {
    if supplied.Some? && supplied.value != 0.0 then supplied.value
    else RandomBetSize(u) as real
  }

  /**
   A question whose stored fields agree with each other: the bet is the
   calculator's amount for the stored pot and percentage, and the answer is
   the calculator's pot odds or MDF for the stored pot and bet.
   */
  predicate Consistent(q: Question) {
    && q.pot >= 0.0
    && q.bet == BetAmount(q.pot, q.betSizePercentage)
    && match q.kind
       case PotOddsQuestion => q.answer == PotOdds(q.pot, q.bet)
       case MdfQuestion => q.answer == Mdf(q.pot, q.bet)
  }

  /** A pot drawn from a non-negative range is non-negative. */
  lemma RandomPotNonNegative(min: real, max: real, u: real)
    requires min >= 0.0 && max >= 0.0 && IsUniformDraw(u)
    ensures RandomPot(min, max, u) >= 0.0
  {
    var x := u * (max - min) + min;
    assert x == (1.0 - u) * min + u * max;
    ScaleWithin(1.0 - u, min);
    ScaleWithin(u, max);
    RoundHalfMonotone(0.0, x);
    RoundHalfFixesGrid(0.0);
  }

  /** On a half-unit-aligned range the drawn pot stays inside it. */
  lemma RandomPotInRange(min: real, max: real, u: real)
    requires 0.0 <= min <= max && IsHalfStep(min) && IsHalfStep(max)
    requires IsUniformDraw(u)
    ensures min <= RandomPot(min, max, u) <= max
  {
    var x := u * (max - min) + min;
    ScaleWithin(u, max - min);
    assert min <= x <= max;
    RoundHalfMonotone(min, x);
    RoundHalfMonotone(x, max);
    RoundHalfFixesGrid(min);
    RoundHalfFixesGrid(max);
  }

  /** Off the grid the range is not kept: a range of [10.3, 10.4] can yield 10.5. */
  lemma RandomPotMayLeaveUnalignedRange()
    ensures RandomPot(10.3, 10.4, 0.0) == 10.5 > 10.4
  {
  }

  /**
   The standard table's cumulative weights are 1, 4, 8, 9, 13, 14 and 17:
   the draw `u * 17` selects a size by the interval it falls in, and never
   reaches the fallback.
   */
  lemma RandomBetSizeByInterval(u: real)
    requires IsUniformDraw(u)
    ensures var r := u * 17.0;
            var size := RandomBetSize(u);
            && (r <= 1.0 ==> size == 20)
            && (1.0 < r <= 4.0 ==> size == 33)
            && (4.0 < r <= 8.0 ==> size == 50)
            && (8.0 < r <= 9.0 ==> size == 66)
            && (9.0 < r <= 13.0 ==> size == 75)
            && (13.0 < r <= 14.0 ==> size == 80)
            && (14.0 < r ==> size == 100)
  {
    var w := StandardWeights;
    assert WeightedDraw.Prefix(w, 1) == 1;
    assert WeightedDraw.Prefix(w, 2) == 4;
    assert WeightedDraw.Prefix(w, 3) == 8;
    assert WeightedDraw.Prefix(w, 4) == 9;
    assert WeightedDraw.Prefix(w, 5) == 13;
    assert WeightedDraw.Prefix(w, 6) == 14;
    assert WeightedDraw.Prefix(w, 7) == 17;
    assert WeightedDraw.Total(w) == 17;
    WeightedDraw.PickIsWeighted(StandardBetSizes, w, u);
  }

  /** `generatePotOddsQuestion`. */
  function GeneratePotOddsQuestion(opts: Options, draws: Draws): (q: Question)
    requires NonNegativeRange(opts) && IsUniformDraw(draws.pot)
    ensures q.kind == PotOddsQuestion
    ensures Consistent(q)
    ensures IsHalfStep(q.pot)
    ensures q.pot == RandomPot(opts.minPot, opts.maxPot, draws.pot)
    ensures q.betSizePercentage == ChooseBetSize(opts.betSizePercentage, draws.betSize)
    ensures AlignedRange(opts) ==> opts.minPot <= q.pot <= opts.maxPot
    ensures 0.0 <= q.answer <= 50.0
  {
    var pot := RandomPot(opts.minPot, opts.maxPot, draws.pot);
    var betSize := ChooseBetSize(opts.betSizePercentage, draws.betSize);
    var bet := BetAmount(pot, betSize);
    RecordFieldsExact(opts, draws);
    PotOddsBounds(pot, bet);
    var answer := PotOdds(pot, bet);
    Question(PotOddsQuestion, Round2(pot), Round2(bet), betSize, answer)
  }

  /** `generateMDFQuestion`. */
  function GenerateMdfQuestion(opts: Options, draws: Draws): (q: Question)
    requires NonNegativeRange(opts) && IsUniformDraw(draws.pot)
    ensures q.kind == MdfQuestion
    ensures Consistent(q)
    ensures IsHalfStep(q.pot)
    ensures q.pot == RandomPot(opts.minPot, opts.maxPot, draws.pot)
    ensures q.betSizePercentage == ChooseBetSize(opts.betSizePercentage, draws.betSize)
    ensures AlignedRange(opts) ==> opts.minPot <= q.pot <= opts.maxPot
    ensures 0.0 <= q.answer <= 100.0
  {
    var pot := RandomPot(opts.minPot, opts.maxPot, draws.pot);
    var betSize := ChooseBetSize(opts.betSizePercentage, draws.betSize);
    var bet := BetAmount(pot, betSize);
    RecordFieldsExact(opts, draws);
    MdfBounds(pot, bet);
    var answer := Mdf(pot, bet);
    Question(MdfQuestion, Round2(pot), Round2(bet), betSize, answer)
  }

  /**
   Rounding the pot and bet to cents when the record is built changes
   neither: the pot is on the half-unit grid and the bet is already in cents.
   The drawn pot is also non-negative, and inside an aligned range.
   */
  lemma RecordFieldsExact(opts: Options, draws: Draws)
    requires NonNegativeRange(opts) && IsUniformDraw(draws.pot)
    ensures var pot := RandomPot(opts.minPot, opts.maxPot, draws.pot);
            var bet := BetAmount(pot, ChooseBetSize(opts.betSizePercentage, draws.betSize));
            && pot >= 0.0
            && Round2(pot) == pot
            && Round2(bet) == bet
            && (AlignedRange(opts) ==> opts.minPot <= pot <= opts.maxPot)
  {
    var pot := RandomPot(opts.minPot, opts.maxPot, draws.pot);
    var bet := BetAmount(pot, ChooseBetSize(opts.betSizePercentage, draws.betSize));
    RandomPotNonNegative(opts.minPot, opts.maxPot, draws.pot);
    HalfStepIsCents(pot);
    Round2FixesCents(pot);
    Round2FixesCents(bet);
    if AlignedRange(opts) {
      RandomPotInRange(opts.minPot, opts.maxPot, draws.pot);
    }
  }

  /** `generateRandomQuestion`: the kind is pot odds when the coin draw is below one half. */
  function GenerateRandomQuestion(opts: Options, draws: Draws): (q: Question)
    requires NonNegativeRange(opts) && IsUniformDraw(draws.pot)
    ensures q.kind == (if draws.kind < 0.5 then PotOddsQuestion else MdfQuestion)
    ensures Consistent(q)
    ensures IsHalfStep(q.pot)
    ensures q.pot == RandomPot(opts.minPot, opts.maxPot, draws.pot)
    ensures q.betSizePercentage == ChooseBetSize(opts.betSizePercentage, draws.betSize)
    ensures AlignedRange(opts) ==> opts.minPot <= q.pot <= opts.maxPot
    ensures 0.0 <= q.answer <= 100.0
    ensures q.kind == PotOddsQuestion ==> q.answer <= 50.0
  {
    var questionType := if draws.kind < 0.5 then PotOddsQuestion else MdfQuestion;
    if questionType == PotOddsQuestion then GeneratePotOddsQuestion(opts, draws)
    else GenerateMdfQuestion(opts, draws)
  }

  /** `checkAnswer`: the user's answer is within `tolerance` of the correct one. */
  function CheckAnswer(userAnswer: real, correctAnswer: real, tolerance: real := 0.5): (ok: bool)
    ensures ok <==> correctAnswer - tolerance <= userAnswer <= correctAnswer + tolerance
  {
    Abs(userAnswer - correctAnswer) <= tolerance
  }

  // ---------------------------------------------------------------------------
  // Properties
  // ---------------------------------------------------------------------------

  /**
   For a pot above half a unit, the stored bet is within one percent of the
   pot of the requested share: cent rounding moves it by at most half a cent.
   */
  lemma BetTracksPercentage(q: Question)
    requires Consistent(q) && q.pot > 0.5
    ensures Abs(q.bet / q.pot - q.betSizePercentage / 100.0) < 0.01
  {
    AmountTracksPercentage(q.pot, q.betSizePercentage);
  }

  lemma AmountTracksPercentage(pot: real, pct: real)
    requires pot > 0.5
    ensures -0.01 < BetAmount(pot, pct) / pot - pct / 100.0 < 0.01
  {
    var exact := pot * pct / 100.0;
    var bet := BetAmount(pot, pct);
    var err := bet - exact;
    assert -0.005 < err <= 0.005;
    CancelFactor(pot, pct);
    DivideSum(exact, err, pot);
    assert bet / pot == exact / pot + err / pot;
    DivideBound(err, pot, 0.01);
  }

  /** The stored answer is within half a cent of the unrounded formula applied to the stored pot and bet. */
  lemma AnswerMatchesFormula(q: Question)
    requires Consistent(q) && q.bet > 0.0
    ensures q.kind == PotOddsQuestion ==> Abs(q.answer - q.bet / (q.pot + q.bet + q.bet) * 100.0) <= 0.005
    ensures q.kind == MdfQuestion ==> Abs(q.answer - (1.0 - q.bet / (q.pot + q.bet)) * 100.0) <= 0.005
  {
    if q.kind == MdfQuestion {
      Complement(q.pot, q.bet);
    }
  }

  /** MDF for a one-third-pot bet is at least 74 on any pot of half a unit or more. */
  lemma ThirdPotMdfAbove74(pot: real)
    requires pot >= 0.5
    ensures Mdf(pot, BetAmount(pot, 33.0)) >= 74.0
  {
    var bet := BetAmount(pot, 33.0);
    assert 0.0 < bet <= 0.34 * pot;
    assert 0.74 * (pot + bet) < pot;
    QuotientAbove(pot, pot + bet, 0.74);
    assert DefenseShare(pot, bet) > 74.0;
    MdfIsRoundedShare(pot, bet);
    Round2Monotone(74.0, DefenseShare(pot, bet));
    Round2FixesCents(74.0);
  }

  /** MDF for a pot-sized bet is exactly 50 on every positive pot of the half-unit grid. */
  lemma PotSizedMdfIs50(pot: real)
    requires pot > 0.0 && IsHalfStep(pot)
    ensures Mdf(pot, BetAmount(pot, 100.0)) == 50.0
  {
    HalfStepIsCents(pot);
    Round2FixesCents(pot);
    assert BetAmount(pot, 100.0) == pot;
    assert DefenseShare(pot, pot) == 50.0 by {
      assert pot / (pot + pot) * 2.0 == 1.0;
    }
    Round2FixesCents(50.0);
  }

  /**
   Smaller bets demand a higher defense frequency: an MDF question for a
   33% bet has a higher answer than one for a pot-sized bet, whatever pots
   the two draws produce from positive aligned ranges.
   */
  lemma SmallerBetHigherMdf(opts1: Options, draws1: Draws, opts2: Options, draws2: Draws)
    requires AlignedRange(opts1) && opts1.minPot > 0.0 && opts1.betSizePercentage == Some(33.0)
    requires AlignedRange(opts2) && opts2.minPot > 0.0 && opts2.betSizePercentage == Some(100.0)
    requires IsUniformDraw(draws1.pot) && IsUniformDraw(draws2.pot)
    ensures GenerateMdfQuestion(opts1, draws1).answer > GenerateMdfQuestion(opts2, draws2).answer
  {
    var q1 := GenerateMdfQuestion(opts1, draws1);
    var q2 := GenerateMdfQuestion(opts2, draws2);
    assert q1.pot >= 0.5 by {
      HalfStepPositive(opts1.minPot);
    }
    ThirdPotMdfAbove74(q1.pot);
    PotSizedMdfIs50(q2.pot);
  }

  /**
   With the default options every question has a positive bet and a
   positive answer: the pot is at least 4.5 and the drawn size at least 20%,
   so the bet is at least 0.9; the pot odds then stay below 50 and the MDF
   at most 100.
   */
  lemma DefaultQuestionsPositive(draws: Draws)
    requires IsUniformDraw(draws.pot)
    ensures var q := GeneratePotOddsQuestion(DefaultOptions, draws);
            TypicalMinPot <= q.pot <= MaxPot && q.bet > 0.0 && 0.0 < q.answer < 100.0
    ensures var q := GenerateMdfQuestion(DefaultOptions, draws);
            TypicalMinPot <= q.pot <= MaxPot && q.bet > 0.0 && 0.0 < q.answer <= 100.0
  {
    var pot := RandomPot(TypicalMinPot, MaxPot, draws.pot);
    var pct := RandomBetSize(draws.betSize) as real;
    assert IsHalfStep(TypicalMinPot) && IsHalfStep(MaxPot);
    RandomPotInRange(TypicalMinPot, MaxPot, draws.pot);
    assert 20.0 <= pct <= 100.0;
    var bet := BetAmount(pot, pct);
    assert pot * pct / 100.0 >= 0.9 by {
      assert pot * pct >= 4.5 * 20.0;
    }
    Round2Monotone(0.9, pot * pct / 100.0);
    Round2FixesCents(0.9);
    assert bet >= 0.9;
    assert pot * pct / 100.0 <= pot;
    assert bet <= pot + 0.005;
    PotOddsFromDefaults(pot, bet);
    MdfFromDefaults(pot, bet);
  }

  /** With a pot in [4.5, 400] and a bet of at least 0.9, the pot odds exceed a tenth of a percent. */
  lemma PotOddsFromDefaults(pot: real, bet: real)
    requires TypicalMinPot <= pot <= MaxPot && 0.9 <= bet <= pot + 0.005
    ensures 0.0 < PotOdds(pot, bet) <= 50.0
  {
    QuotientAbove(bet, pot + bet + bet, 0.001);
    assert PotOddsShare(pot, bet) > 0.1;
    PotOddsIsRoundedShare(pot, bet);
    Round2Monotone(0.1, PotOddsShare(pot, bet));
    Round2FixesCents(0.1);
    PotOddsBounds(pot, bet);
  }

  /** With a pot of at least 4.5 and a bet at most half a cent above it, the MDF exceeds one percent. */
  lemma MdfFromDefaults(pot: real, bet: real)
    requires TypicalMinPot <= pot && 0.9 <= bet <= pot + 0.005
    ensures 0.0 < Mdf(pot, bet) <= 100.0
  {
    QuotientAbove(pot, pot + bet, 0.01);
    assert DefenseShare(pot, bet) > 1.0;
    MdfIsRoundedShare(pot, bet);
    Round2Monotone(1.0, DefenseShare(pot, bet));
    Round2FixesCents(1.0);
    MdfBounds(pot, bet);
  }

  /**
   On one pot, a smaller bet-size percentage never gives a lower MDF: the
   rounded bet amount does not grow, and MDF does not rise as the bet falls.
   */
  lemma SamePotSmallerPctNoLowerMdf(pot: real, p1: real, p2: real)
    requires pot >= 0.0 && p1 <= p2
    ensures Mdf(pot, BetAmount(pot, p1)) >= Mdf(pot, BetAmount(pot, p2))
  {
    assert pot * p1 / 100.0 <= pot * p2 / 100.0;
    if pot == 0.0 {
      Round2FixesCents(0.0);
    } else {
      Round2Monotone(pot * p1 / 100.0, pot * p2 / 100.0);
      MdfNonIncreasing(pot, BetAmount(pot, p1), BetAmount(pot, p2));
    }
  }

  /** A positive point of the half-unit grid is at least one half. */
  lemma HalfStepPositive(x: real)
    requires x > 0.0 && IsHalfStep(x)
    ensures x >= 0.5
  {
  }

  lemma CheckAnswerSymmetric(a: real, b: real, tolerance: real)
    ensures CheckAnswer(a, b, tolerance) == CheckAnswer(b, a, tolerance)
  {
  }

  lemma CheckAnswerReflexive(a: real, tolerance: real)
    requires tolerance >= 0.0
    ensures CheckAnswer(a, a, tolerance)
  {
  }

  /** Widening the tolerance never turns an accepted answer into a rejected one. */
  lemma CheckAnswerMonotone(a: real, b: real, t1: real, t2: real)
    requires t1 <= t2
    ensures CheckAnswer(a, b, t1) ==> CheckAnswer(a, b, t2)
  {
  }

  /** The answer checks of the generator's tests, with the default tolerance of one half. */
  lemma CheckAnswerExamples()
    ensures CheckAnswer(25.0, 25.4) && CheckAnswer(25.0, 24.6) && CheckAnswer(33.33, 33.5)
    ensures !CheckAnswer(25.0, 26.0) && !CheckAnswer(25.0, 24.0) && !CheckAnswer(33.33, 34.0)
    ensures CheckAnswer(25.0, 26.0, 1.0) && !CheckAnswer(25.0, 26.5, 1.0)
    ensures CheckAnswer(0.0, 0.4) && !CheckAnswer(0.0, 0.6)
  {
  }
}

=== FILE: real_arith.dfy ===
/**
 Facts about real multiplication and division that the solver does not
 find on its own; the percentage formulas of the calculator need them.
 */
module RealArith {

  /** A product is zero only when a factor is. */
  lemma ZeroFactor(w: real, d: real)
    requires d != 0.0 && w * d == 0.0
    ensures w == 0.0
  {
  }

  /** `b/(a+b)` and `a/(a+b)` make up a whole. */
  lemma Complement(a: real, b: real)
    requires a + b != 0.0
    ensures 1.0 - b / (a + b) == a / (a + b)
  {
    var d := a + b;
    var x := b / d;
    var y := a / d;
    assert x * d == b;
    assert y * d == a;
    assert (x + y) * d == x * d + y * d;
    ZeroFactor(x + y - 1.0, d);
  }

  /** Splitting off a whole: `(a+b)/b` is one more than `a/b`. */
  lemma SplitWhole(a: real, b: real)
    requires b != 0.0
    ensures a / b + 1.0 == (a + b) / b
  {
    var x := a / b;
    var z := (a + b) / b;
    assert x * b == a;
    assert z * b == a + b;
    ZeroFactor(x + 1.0 - z, b);
  }

  /** Division distributes over a sum. */
  lemma DivideSum(a: real, b: real, d: real)
    requires d != 0.0
    ensures (a + b) / d == a / d + b / d
  {
    var x := a / d;
    var y := b / d;
    var z := (a + b) / d;
    assert x * d == a;
    assert y * d == b;
    assert z * d == a + b;
    assert (x + y) * d == x * d + y * d;
    ZeroFactor(z - x - y, d);
  }

  /** A factor of a product cancels against the same divisor. */
  lemma CancelFactor(x: real, y: real)
    requires x != 0.0
    ensures x * y / 100.0 / x == y / 100.0
  {
    var z := x * y / 100.0 / x;
    assert z * x == x * y / 100.0;
    ZeroFactor(z - y / 100.0, x);
  }

  /** Scaling by a fraction in [0, 1] keeps a non-negative amount between 0 and itself. */
  lemma ScaleWithin(u: real, d: real)
    requires 0.0 <= u <= 1.0 && d >= 0.0
    ensures 0.0 <= u * d <= d
  {
    assert (1.0 - u) * d >= 0.0;
  }

  /** Multiplying by a positive amount keeps the sign. */
  lemma PositiveFactorSign(w: real, d: real)
    requires d > 0.0
    ensures w * d >= 0.0 ==> w >= 0.0
    ensures w * d > 0.0 ==> w > 0.0
  {
  }

  /** A quotient by a positive amount lies between the bounds its dividend lies between, scaled. */
  lemma QuotientBounds(a: real, d: real, lo: real, hi: real)
    requires d > 0.0 && lo * d <= a <= hi * d
    ensures lo <= a / d <= hi
  {
    var q := a / d;
    assert q * d == a;
    assert (q - lo) * d == a - lo * d;
    assert (hi - q) * d == hi * d - a;
    PositiveFactorSign(q - lo, d);
    PositiveFactorSign(hi - q, d);
  }

  /** A dividend above `c` times the divisor gives a quotient above `c`. */
  lemma QuotientAbove(a: real, d: real, c: real)
    requires d > 0.0 && a > c * d
    ensures a / d > c
  {
    var q := a / d;
    assert q * d == a;
    assert (q - c) * d == a - c * d;
    PositiveFactorSign(q - c, d);
  }

  /** Comparing two fractions with positive denominators by cross-multiplication. */
  lemma CrossCompare(a: real, b: real, c: real, d: real)
    requires b > 0.0 && d > 0.0
    ensures a * d <= c * b ==> a / b <= c / d
    ensures a * d < c * b ==> a / b < c / d
  {
    var x := a / b;
    var y := c / d;
    assert x * b == a;
    assert y * d == c;
    assert (y - x) * (b * d) == c * b - a * d;
    PositiveFactorSign(y - x, b * d);
  }

  /** Dividing by a positive amount keeps a small quantity small. */
  lemma DivideBound(e: real, d: real, bound: real)
    requires d > 0.0 && -bound * d < e < bound * d
    ensures -bound < e / d < bound
  {
    var q := e / d;
    assert q * d == e;
  }
}

=== FILE: score.dfy ===
/**
 The running score of the browser application (mdf-trainer/public/app.js):
 for each question kind, how many answers were correct out of how many were
 given. A numeric answer counts toward the kind of the question on screen; a
 non-numeric one is refused without touching the score; reset zeroes
 everything. Saving to and loading from browser storage, and the rendering
 of the score, are not modelled.
 */
module Score {
  import opened JsMath
  import opened Wrappers
  import QG = QuestionGenerator
  import BrowserQuestions

  /** Correct answers out of answers given, for one question kind. */
  datatype Tally = Tally(correct: nat, total: nat)

  datatype Stats = Stats(potOdds: Tally, mdf: Tally)

  /** What the page tells the user after a submission. */
  datatype Feedback =
    | InvalidNumber
    | Correct(answer: real)
    | Wrong(answer: real, userAnswer: real)

  /** The score of a fresh page. */
  const Initial: Stats := Stats(Tally(0, 0), Tally(0, 0))

  /** No kind has more correct answers than answers. */
  predicate Valid(s: Stats) {
    s.potOdds.correct <= s.potOdds.total && s.mdf.correct <= s.mdf.total
  }

  /** The tally a question of this kind counts toward. */
  function TallyOf(s: Stats, kind: QG.QuestionKind): Tally {
    match kind
    case PotOddsQuestion => s.potOdds
    case MdfQuestion => s.mdf
  }

  function OtherKind(kind: QG.QuestionKind): QG.QuestionKind {
    match kind
    case PotOddsQuestion => QG.MdfQuestion
    case MdfQuestion => QG.PotOddsQuestion
  }

  /** `resetStats`: a score with nothing counted. */
  function ResetStats(): (s: Stats)
    ensures Valid(s)
    ensures forall kind :: TallyOf(s, kind) == Tally(0, 0)
  {
    Stats(Tally(0, 0), Tally(0, 0))
  }

  /**
   `submitAnswer`: `input` is the parsed answer, `None` when it is not a
   number. A number adds one answer to the tally of the question's kind, and
   one correct answer when it lies within the default tolerance; the other
   kind's tally is untouched.
   */
  function SubmitAnswer(s: Stats, question: QG.Question, input: Option<real>): (result: (Stats, Feedback))
    ensures input.None? ==> result == (s, InvalidNumber)
    ensures input.Some? ==>
              var accepted := BrowserQuestions.CheckAnswer(input.value, question.answer);
              && TallyOf(result.0, question.kind).total == TallyOf(s, question.kind).total + 1
              && TallyOf(result.0, question.kind).correct
                 == TallyOf(s, question.kind).correct + (if accepted then 1 else 0)
              && TallyOf(result.0, OtherKind(question.kind)) == TallyOf(s, OtherKind(question.kind))
              && result.1 == (if accepted then Correct(question.answer) else Wrong(question.answer, input.value))
    ensures Valid(s) ==> Valid(result.0)
  {
    match input
    case None => (s, InvalidNumber)
    case Some(userAnswer) =>
      var isCorrect := BrowserQuestions.CheckAnswer(userAnswer, question.answer);
      if isCorrect then
        var stats :=
          if question.kind == QG.PotOddsQuestion then
            s.(potOdds := Tally(s.potOdds.correct + 1, s.potOdds.total + 1))
          else
            s.(mdf := Tally(s.mdf.correct + 1, s.mdf.total + 1));
        (stats, Correct(question.answer))
      else
        var stats :=
          if question.kind == QG.PotOddsQuestion then
            s.(potOdds := s.potOdds.(total := s.potOdds.total + 1))
          else
            s.(mdf := s.mdf.(total := s.mdf.total + 1));
        (stats, Wrong(question.answer, userAnswer))
  }

  /** The accuracy shown for a tally: the rounded percentage correct, 0 before any answer. */
  function Accuracy(t: Tally): (pct: int)
    ensures t.total == 0 ==> pct == 0
    ensures t.total > 0 ==>
              var exact := t.correct as real / t.total as real * 100.0;
              exact - 0.5 < pct as real <= exact + 0.5
  {
    if t.total > 0 then Round((t.correct as real / t.total as real) * 100.0) else 0
  }

  /** For a valid tally the accuracy is a percentage. */
  lemma AccuracyIsPercentage(t: Tally)
    requires t.correct <= t.total
    ensures 0 <= Accuracy(t) <= 100
  {
    if t.total > 0 {
      var ratio := t.correct as real / t.total as real;
      assert ratio * t.total as real == t.correct as real;
      assert 0.0 <= ratio <= 1.0;
      RoundMonotone(0.0, ratio * 100.0);
      RoundMonotone(ratio * 100.0, 100.0);
      RoundWhole(0.0);
      RoundWhole(100.0);
    }
  }

  /** A user action that changes the score: an answer submission, or the reset button. */
  datatype Event =
    | Submitted(question: QG.Question, input: Option<real>)
    | ResetPressed

  function Step(s: Stats, e: Event): Stats {
    match e
    case Submitted(question, input) => SubmitAnswer(s, question, input).0
    case ResetPressed => ResetStats()
  }

  /** The score after a sequence of actions. */
  function Replay(s: Stats, events: seq<Event>): Stats
    decreases |events|
  {
    if |events| == 0 then s else Replay(Step(s, events[0]), events[1..])
  }

  /** Every action keeps correct answers at or below answers given. */
  lemma {:induction false} ReplayKeepsValid(s: Stats, events: seq<Event>)
    requires Valid(s)
    ensures Valid(Replay(s, events))
    decreases |events|
  {
    if |events| > 0 {
      ReplayKeepsValid(Step(s, events[0]), events[1..]);
    }
  }

  /** Starting from a fresh page, the score is valid after any sequence of actions. */
  lemma ReachableScoresValid(events: seq<Event>)
    ensures Valid(Replay(Initial, events))
  {
    ReplayKeepsValid(Initial, events);
  }

  /** The number of numeric answers among the actions. */
  function Answered(events: seq<Event>): nat
    decreases |events|
  {
    if |events| == 0 then 0
    else (if events[0].Submitted? && events[0].input.Some? then 1 else 0) + Answered(events[1..])
  }

  /** Between resets, the two totals together grow by exactly the number of numeric answers. */
  lemma {:induction false} TotalsCountAnswers(s: Stats, events: seq<Event>)
    requires forall i :: 0 <= i < |events| ==> events[i].Submitted?
    ensures Replay(s, events).potOdds.total + Replay(s, events).mdf.total
            == s.potOdds.total + s.mdf.total + Answered(events)
    decreases |events|
  {
    if |events| > 0 {
      var next := Step(s, events[0]);
      assert next.potOdds.total + next.mdf.total
             == s.potOdds.total + s.mdf.total + (if events[0].input.Some? then 1 else 0) by {
        var r := SubmitAnswer(s, events[0].question, events[0].input);
        if events[0].input.Some? {
          assert TallyOf(r.0, events[0].question.kind).total == TallyOf(s, events[0].question.kind).total + 1;
        }
      }
      TotalsCountAnswers(next, events[1..]);
    }
  }
}

=== FILE: weighted_draw.dfy ===
/**
 Weighted discrete choice by a cumulative-weight scan, as both bet-size
 generators do it (mdf-trainer/src/questionGenerator.js and
 mdf-trainer/public/app.js): draw `random` uniformly from [0, total weight),
 subtract the weights one by one, and stop at the first size where the
 remainder drops to zero or below; if the scan runs off the end, fall back
 to the first size.

 The uniform draw in [0, 1) that the source takes from `Math.random()` is a
 parameter here.
 */
module WeightedDraw {
  import opened Wrappers

  /** The sum of the first `n` weights. */
  function Prefix(weights: seq<nat>, n: nat): nat
    requires n <= |weights|
  {
    if n == 0 then 0 else Prefix(weights, n - 1) + weights[n - 1]
  }

  /** The sum of all weights (`weights.reduce((a, b) => a + b, 0)`). */
  function Total(weights: seq<nat>): nat {
    Prefix(weights, |weights|)
  }

  /**
   The loop of the source from index `i` on, with `random` the amount still
   to be consumed: the index at which the scan stops, or `None` when it runs
   off the end.
   */
  function Scan(weights: seq<nat>, i: nat, random: real): (stop: Option<nat>)
    requires i <= |weights|
    ensures stop.Some? ==> i <= stop.value < |weights|
    decreases |weights| - i
  {
    if i == |weights| then None
    else
      var rest := random - weights[i] as real;
      if rest <= 0.0 then Some(i) else Scan(weights, i + 1, rest)
  }

  /** Index `i` is the first whose cumulative weight reaches `r`. */
  predicate FirstReaching(weights: seq<nat>, r: real, i: nat) {
    && i < |weights|
    && r <= Prefix(weights, i + 1) as real
    && forall n :: 0 < n <= i ==> Prefix(weights, n) as real < r
  }

  /** The size drawn by `u`, a uniform draw in [0, 1). */
  function Pick(sizes: seq<int>, weights: seq<nat>, u: real): (size: int)
    requires |sizes| == |weights| > 0
    ensures size in sizes
  {
    var random := u * Total(weights) as real;
    match Scan(weights, 0, random)
    case Some(i) => sizes[i]
    case None => sizes[0]
  }

  /**
   Scanning from `i`, with `random` the part of `r` left after the first `i`
   weights and none of those weights having reached `r`, stops exactly at
   the first index whose cumulative weight reaches `r`, and runs off the end
   exactly when the total weight is below `r`.
   */
  lemma {:induction false} ScanFromReachesFirst(weights: seq<nat>, r: real, i: nat, random: real)
    requires 0 < |weights| && i <= |weights|
    requires random == r - Prefix(weights, i) as real
    requires forall n :: 0 < n <= i ==> Prefix(weights, n) as real < r
    ensures match Scan(weights, i, random)
            case Some(k) => FirstReaching(weights, r, k)
            case None => Total(weights) as real < r
    decreases |weights| - i
  {
    if i == |weights| {
      assert Prefix(weights, i) as real < r;
    } else {
      var rest := random - weights[i] as real;
      assert rest == r - Prefix(weights, i + 1) as real;
      if rest > 0.0 {
        ScanFromReachesFirst(weights, r, i + 1, rest);
      }
    }
  }

  /** The scan from the start picks the first index whose cumulative weight reaches `r`. */
  lemma ScanIsFirstReaching(weights: seq<nat>, r: real)
    requires 0 < |weights|
    ensures match Scan(weights, 0, r)
            case Some(k) => FirstReaching(weights, r, k)
            case None => Total(weights) as real < r
  {
    ScanFromReachesFirst(weights, r, 0, r);
  }

  /**
   Every draw in [0, 1] stops inside the table: the fallback to the first
   size is unreachable, and the size drawn is the one whose cumulative
   weight is the first to reach `u * total`.
   */
  lemma PickIsWeighted(sizes: seq<int>, weights: seq<nat>, u: real)
    requires |sizes| == |weights| > 0
    requires 0.0 <= u <= 1.0
    ensures Scan(weights, 0, u * Total(weights) as real).Some?
    ensures FirstReaching(weights, u * Total(weights) as real, Scan(weights, 0, u * Total(weights) as real).value)
    ensures Pick(sizes, weights, u) == sizes[Scan(weights, 0, u * Total(weights) as real).value]
  {
    var r := u * Total(weights) as real;
    ScanIsFirstReaching(weights, r);
    assert r <= Total(weights) as real;
  }
}

=== FILE: wrappers.dfy ===
/** Optional values: a JavaScript `null`, `undefined` or `NaN` becomes `None`. */
module Wrappers {

  datatype Option<+T> = None | Some(value: T)
}
